=== FILE: README.md ===
# flyxc viewer: address parameters and live-tracking overlay

This project is a Dafny model of two parts of the flyxc viewer.

- **The address-bar parameter store** (`history.ts`). The viewer keeps its
  shareable state in the query of the page address. Track URLs and track ids
  may each occur several times. The encoded route, the league and the speed
  are meant to occur once. Each operation reads the current query through
  the `URLSearchParams` interface of the WHATWG URL Standard (section 6.2).
  `hasTrackOrRoute` only reads it. `getUrlParam` writes the address back
  unchanged. The other operations change the query and write the address
  back. The model treats the query as an
  ordered list of name-value pairs (`SearchParams`). Each operation
  (`UrlHistory`) maps the pairs before the call to the pairs after it.
- **The live-tracking overlay** (`tracking-element.ts`). Every two minutes,
  while the page is visible, this element polls a snapshot of the live
  trackers. It puts the snapshot's features on the map's data layer and
  styles them:
  - fixes become circles, arrows or speech bubbles, labelled with the pilot's
    name and the fix's age;
  - tracks are drawn in grey, faded after twelve hours, and thick for the
    selected pilot.

  Clicking a fix opens an info window and selects that pilot. The model
  splits this into:
  - polling (`Polling`);
  - applying a snapshot to the layer (`Reconcile`);
  - the style function (`Style`, with `AgeLabel` and `Decimal` for the
    label text);
  - the info window's lines (`PopupContent`);
  - the element as a whole, an event-driven state machine (`Overlay`).

The features the overlay works on are records (`Features`). Their identity
on the data layer is an `id`, standing for JavaScript object identity. Time
is a parameter (`now`, in milliseconds). The calls to `fetch`, `setInterval`
and `clearInterval` are recorded as effects, not performed.

`deleteUrlParamValue` is documented as removing a single value. The code
removes every occurrence of that value, and the model follows the code
(`UrlHistory.DeleteUrlParamValue`, `UrlHistory.WithoutMultiset`). The code
also clears the name and appends the surviving values back, so those pairs
move behind every other pair. The model keeps that as well.

## Model

| member | source | states |
|---|---|---|
| SearchParams.GetAll | frontend/src/viewer/logic/history.ts:29 | the values of a name are exactly the values of the pairs with that name, and there are no more of them than pairs |
| SearchParams.GetAllConcat | frontend/src/viewer/logic/history.ts:29 | the values of a name in a concatenation are those of the first part followed by those of the second |
| SearchParams.Has | frontend/src/viewer/logic/history.ts:22 | a name is present exactly when it has at least one value |
| SearchParams.Append | frontend/src/viewer/logic/history.ts:50 | appending keeps the earlier pairs in place and adds the value at the end of that name's values, touching no other name |
| SearchParams.Delete | frontend/src/viewer/logic/history.ts:38 | deleting removes exactly the pairs with that name; every other name keeps its values |
| SearchParams.DeleteConcat | frontend/src/viewer/logic/history.ts:38 | deleting commutes with splitting the list, so with the one-pair case the remaining pairs keep their order |
| SearchParams.Set | frontend/src/viewer/logic/history.ts:64 | the new pair is in the result, at most one pair is added, and every other pair of the result was there before |
| SearchParams.SetValues | frontend/src/viewer/logic/history.ts:64 | after setting, the new value is the name's only value and every other name keeps its values |
| SearchParams.SetAbsentAppends | frontend/src/viewer/logic/history.ts:64 | setting a name that is absent appends one pair at the end |
| SearchParams.SetKeepsFirstPosition | frontend/src/viewer/logic/history.ts:64 | setting replaces the first pair with that name in place, leaves every pair before it alone, and only drops same-named pairs after it |
| UrlHistory.HasTrackOrRoute | frontend/src/viewer/logic/history.ts:1-23 | true exactly when `id`, `track` or `p` has a value |
| UrlHistory.GetUrlParam | frontend/src/viewer/logic/history.ts:26-32 | returns every value of the name in list order, duplicates kept, and exactly the values of pairs with that name; writing the address back changes no parameter |
| UrlHistory.DeleteUrlParam | frontend/src/viewer/logic/history.ts:35-40 | the name ends with no values and every other name keeps its values |
| UrlHistory.AddUrlParamValue | frontend/src/viewer/logic/history.ts:45-53 | the value is appended only if absent, other names are unchanged, and a list without duplicates stays without duplicates |
| UrlHistory.AddUrlParamValueIdempotent | frontend/src/viewer/logic/history.ts:45-53 | adding the same value twice gives the same result as adding it once |
| UrlHistory.ParamString | frontend/src/viewer/logic/history.ts:57 | a string element is itself; a number element is rendered so that the strict decimal reader reads back exactly that number, which makes it the one canonical decimal text of the number |
| UrlHistory.AddUrlParamValues | frontend/src/viewer/logic/history.ts:56-58 | the values afterwards are the old values followed by the given values not among them, in list order and each only the first time; the same in terms of membership; no duplicates are created; other names are unchanged |
| UrlHistory.AddValuesInListOrder | frontend/src/viewer/logic/history.ts:56-58 | adding a, b, a to a name without values gives exactly a, b |
| UrlHistory.AddPresentValuesIsNoop | frontend/src/viewer/logic/history.ts:45-58 | adding values that are all present already changes nothing |
| UrlHistory.AddUrlParamValuesIdempotent | frontend/src/viewer/logic/history.ts:56-58 | adding the same list twice gives the same result as adding it once |
| UrlHistory.SetUrlParamValue | frontend/src/viewer/logic/history.ts:61-66 | the name ends with exactly one value, the given one, and other names are unchanged |
| UrlHistory.AppendAllBut | frontend/src/viewer/logic/history.ts:77-83 | the loop re-appends, in order, every value that differs from the one deleted, and reports whether some value equalled it |
| UrlHistory.DeleteUrlParamValue | frontend/src/viewer/logic/history.ts:71-86 | reports whether the value was present, removes every occurrence while the other values keep their order, leaves other names alone, and moves the name's pairs to the end |
| UrlHistory.RebuiltValues | frontend/src/viewer/logic/history.ts:76-83 | after clearing a name and appending values for it, the name has exactly those values and other names keep theirs |
| UrlHistory.WithoutConcat | frontend/src/viewer/logic/history.ts:77-83 | filtering a value out commutes with splitting the list |
| UrlHistory.WithoutMultiset | frontend/src/viewer/logic/history.ts:77-83 | exactly the occurrences of the deleted value go; every other value keeps its count |
| UrlHistory.WithoutAbsent | frontend/src/viewer/logic/history.ts:77-83 | deleting an absent value keeps the values as they were |
| UrlHistory.WithoutExamples | frontend/src/viewer/logic/history.ts:77-83 | deleting "7" from 5,7,9 leaves 5,9, and deleting it from 7,7 leaves nothing |
| Decimal.NatToString | frontend/src/viewer/components/2d/tracking-element.ts:220-221 | the decimal digits of a number, with no leading zero and of length one exactly below ten |
| Decimal.IntToString | frontend/src/viewer/components/2d/tracking-element.ts:220 | the rendering of an integer is its digits, preceded by a minus sign when negative |
| Decimal.ParseNatToString | frontend/src/viewer/components/2d/tracking-element.ts:220-221 | reading a rendered number back gives the number |
| Decimal.ParseIntToString | frontend/src/viewer/components/2d/tracking-element.ts:220 | reading a rendered integer back gives the integer |
| Decimal.NatToStringParse | frontend/src/viewer/components/2d/tracking-element.ts:220-221 | digits without a leading zero are what the renderer writes for their value |
| Decimal.IntToStringParse | frontend/src/viewer/components/2d/tracking-element.ts:220 | whatever the strict reader accepts is what the renderer writes for the value read |
| Decimal.ParseIntIff | frontend/src/viewer/components/2d/tracking-element.ts:220 | a text reads as an integer exactly when it is that integer rendered |
| Decimal.PadStart | frontend/src/viewer/components/2d/tracking-element.ts:221 | padding reaches the width, keeps the string at the end and fills only in front of it |
| AgeLabel.RoundedMinutes | frontend/src/viewer/components/2d/tracking-element.ts:217 | the age in minutes is the nearest whole number, with half a minute rounding up |
| AgeLabel.AgeText | frontend/src/viewer/components/2d/tracking-element.ts:218-221 | the text ends in `min` exactly under an hour; from an hour on it has an hour mark followed by two digits |
| AgeLabel.ParseAgeText | frontend/src/viewer/components/2d/tracking-element.ts:218-221 | the age text reads back as the minutes it was written from |
| AgeLabel.AgeTextOfParse | frontend/src/viewer/components/2d/tracking-element.ts:218-221 | only age texts are read: `<m>min` with `m` below sixty in canonical form, or `<h>h<mm>` with `h` at least one without a leading zero and `mm` two digits below sixty, and each is the text written for the minutes read |
| AgeLabel.ParseAgeIff | frontend/src/viewer/components/2d/tracking-element.ts:218-221 | a text reads as `m` minutes exactly when it is the age text for `m` |
| AgeLabel.AgeTextExamples | frontend/src/viewer/components/2d/tracking-element.ts:218-221 | 45 minutes read `45min` and 125 minutes read `2h05` |
| Style.StaleIffOverTwelveHours | frontend/src/viewer/components/2d/tracking-element.ts:166-167 | the twelve-hour test on the real-valued hour age is an age above 43200000 ms |
| Style.AgeOpacity | frontend/src/viewer/components/2d/tracking-element.ts:166-167 | opacity is 0.3 exactly when older than twelve hours, and 0.9 otherwise |
| Style.FixLabel | frontend/src/viewer/components/2d/tracking-element.ts:213-228 | a label exists exactly on the newest fix while names are displayed; it is the name, a middle-dot separator, then a text that reads as the rounded age, which is therefore the age text for it |
| Style.FixStyleOf | frontend/src/viewer/components/2d/tracking-element.ts:159-246 | stacking is 10, plus 10 for a message and 10 for an emergency; fill, opacity, symbol, rotation and scale follow the circle, arrow, message and emergency overrides in that order |
| Style.EmergencyHidesMessage | frontend/src/viewer/components/2d/tracking-element.ts:191-211 | an emergency marker looks the same with or without a message |
| Style.TrackStyleOf | frontend/src/viewer/components/2d/tracking-element.ts:248-265 | a track is grey with stacking 10, thick exactly when its non-empty name is the selected pilot, and faded by the age of its first fix |
| Style.HighlightIsExclusive | frontend/src/viewer/components/2d/tracking-element.ts:254-257 | two thick tracks belong to the same pilot |
| Style.StyleOf | frontend/src/viewer/components/2d/tracking-element.ts:143-157 | points take the fix style, line strings the track style, and any other geometry the empty style |
| PopupContent.OrderedConcat | frontend/src/viewer/components/2d/tracking-element.ts:110-130 | lines in window order followed by higher-ranked lines in window order are in window order |
| PopupContent.MessageMembers | frontend/src/viewer/components/2d/tracking-element.ts:118-120 | a message line appears exactly when the message is a non-empty string |
| PopupContent.FlagMembers | frontend/src/viewer/components/2d/tracking-element.ts:121-130 | the emergency line appears exactly for emergencies; the three warning lines each appear exactly when validity is explicitly false |
| PopupContent.WarningLast | frontend/src/viewer/components/2d/tracking-element.ts:124-130 | the three warning lines close the window |
| PopupContent.Content | frontend/src/viewer/components/2d/tracking-element.ts:110-130 | the window starts with name, time, altitude and speed, and directions; then come the message, emergency and three warning lines in that order, each exactly under its condition |
| Polling.DisciplinedConcat | frontend/src/viewer/components/2d/tracking-element.ts:58-71 | timer discipline over two runs of calls is discipline over the first, then over the second from where the first left off |
| Polling.CountConcat | frontend/src/viewer/components/2d/tracking-element.ts:62-63 | fetches and timer starts add up over concatenated runs |
| Polling.HandleVisibility | frontend/src/viewer/components/2d/tracking-element.ts:56-71 | a visible page ends with a timer and a hidden one without; a fetch happens exactly on becoming visible without a timer; no timer starts while one runs; every timer started has the two-minute period; only the running one is cleared |
| Polling.VisibilityKeepsOneTimer | frontend/src/viewer/components/2d/tracking-element.ts:44-71 | over any sequence of visibility changes there is never a second timer, only the running timer is cleared, and fetches match timer starts |
| Polling.HiddenThenVisibleTwice | frontend/src/viewer/components/2d/tracking-element.ts:58-71 | hidden, then visible twice: one fetch and one timer, still running at the end |
| Reconcile.Strip | frontend/src/viewer/components/2d/tracking-element.ts:89 | removing features keeps exactly the features whose identity was not removed |
| Reconcile.StripConcat | frontend/src/viewer/components/2d/tracking-element.ts:88-89 | removal commutes with concatenation of layers |
| Reconcile.StripTwice | frontend/src/viewer/components/2d/tracking-element.ts:89 | two removals in a row are one removal of both sets |
| Reconcile.StripUntouched | frontend/src/viewer/components/2d/tracking-element.ts:89 | removing identities absent from the layer leaves it unchanged |
| Reconcile.StripCovered | frontend/src/viewer/components/2d/tracking-element.ts:89 | removing every identity in the layer empties it |
| Reconcile.RemoveEach | frontend/src/viewer/components/2d/tracking-element.ts:89 | removing one feature at a time gives one intermediate layer per previous feature, and the last of them is the final layer |
| Reconcile.RemoveEachStrips | frontend/src/viewer/components/2d/tracking-element.ts:89 | after all the removals the layer lacks exactly the previous features, the rest in order |
| Reconcile.RemoveEachKeeps | frontend/src/viewer/components/2d/tracking-element.ts:89 | a feature that is not among the previous ones is on every intermediate layer |
| Reconcile.ApplySnapshot | frontend/src/viewer/components/2d/tracking-element.ts:82-92 | a failed response changes nothing; without a map the features become empty; otherwise the snapshot becomes the features, the first frame is the layer with the snapshot added, and the final layer has the previous features removed from both |
| Reconcile.SnapshotOnEveryFrame | frontend/src/viewer/components/2d/tracking-element.ts:87-89 | with new feature objects, each of them is on every intermediate layer while the previous features go |
| Reconcile.SoleOwnerReplaced | frontend/src/viewer/components/2d/tracking-element.ts:82-92 | when the layer held exactly the previous features, it ends holding exactly the new ones and never goes empty on the way |
| Overlay.Step | frontend/src/viewer/components/2d/tracking-element.ts:20-141 | each event keeps the timer discipline; a fetch comes only after a visibility change while listening or a map assignment with no timer running, or on a tick of the running timer; a tick changes nothing else and fetches exactly when it is the running timer's; unassigning the map drops the layer and nothing else; an arriving snapshot is applied as the reconcile step does; clicking a fix with a map selects exactly that pilot and opens its window, and other clicks do nothing; closing unselects and closes the window and changes nothing else; a preference change sets only the name display; connecting starts listening and disconnecting stops it, leaving the timer as it was; a visibility change while not listening does nothing; only snapshots and map changes touch the features and layer; a window showing the selection keeps doing so |
| Overlay.StepPolls | frontend/src/viewer/components/2d/tracking-element.ts:24-71 | after a visibility change while listening, or a map assignment, a timer runs exactly when the page is visible and a fetch comes exactly when a timer had to be started; at most one fetch and one timer start happen, paired; a visible page whose timer runs sees nothing happen; a map assignment installs the layer and closes the window; nothing else in the state changes |
| Overlay.RunKeepsInvariants | frontend/src/viewer/components/2d/tracking-element.ts:20-141 | over any sequence of events the timer discipline holds, `fetchId` names the running timer, and an open window is about the selected pilot |
| Overlay.FromInitial | frontend/src/viewer/components/2d/tracking-element.ts:17-42 | the same holds for every run from a freshly connected element |
| Overlay.SecondClickMovesHighlight | frontend/src/viewer/components/2d/tracking-element.ts:105-138 | after clicking Alice's fix and then Bob's, Bob's window is open, Bob's track is thick and Alice's is normal |
| Overlay.PollingOutlivesDisconnect | frontend/src/viewer/components/2d/tracking-element.ts:44-71 | after a disconnect the running timer survives hiding the page and still fetches |
| Overlay.CloseClearsHighlight | frontend/src/viewer/components/2d/tracking-element.ts:98-103 | after the window is closed no track is thick |
| Overlay.SnapshotAppliedWhileHidden | frontend/src/viewer/components/2d/tracking-element.ts:82-92 | a response that arrives after polling stopped is still applied |

## Left out

- Reading `document.location` and writing it back with `history.replaceState`
  are not modelled. Each operation maps the parameters before the call to the
  parameters after it.
- `pushCurrentState` is not modelled. It only pushes the unchanged address
  onto the browser history, which is outside the model.
- The serialisation of the query (percent-encoding, `+` for spaces) is not
  modelled. Parameters are the decoded name-value pairs.
- UrlHistory.ParamString: numbers are safe integers, at most
  `Number.MAX_SAFE_INTEGER` in magnitude. `String` of a fractional or
  non-finite number, of an integer too large to be held exactly, and the
  exponent form it uses from 10^21 on, are not modelled.
- The saturation of the recency green (`linearInterpolate`) is not modelled.
  It is floating point, so the fill is the symbolic colour `RecencyGreen`.
- Style.FixStyleOf: the label origin of an arrow is not computed. It is given
  as "ahead of an arrow turned to the bearing", because the sine and cosine
  offset is floating point.
- Constant presentation fields are not modelled: the black stroke of fixes
  and its weight of 1, the `zoom-in` cursor, and the label's colour and font
  size.
- The `bearing` property is an integer in the model. `Number(...)` of a
  non-numeric value is not modelled.
- Property values are typed in the model. JavaScript truthiness of other
  types is left out, except for `msg`, which counts only when it is a
  non-empty string. Examples of what is left out: a numeric `emergency`, or
  `is_last_fix` other than `true`.
- The formatting of dates, altitudes and speeds (`formatUnit`, locale
  strings, units from the store) is not modelled. Info-window lines record
  what they show, not their HTML.
- The network request, JSON parsing and the timers are recorded as effects
  (`Fetch`, `StartInterval`, `ClearInterval`), not performed. A response
  arrives as a separate event, in any order. A rejected request produces no
  event.
- The position of the info window and its `open` call are not modelled. Only
  the fact that it is open and its lines are.
- Dispatching the name-display preference to the store (`handleDisplayNames`)
  is not modelled. The value the store sends back is the
  `PreferenceChanged` event. Re-installing the style after a change is
  implicit, because the style is a function of the current state.
- `render` is not modelled: the checkbox and the link to the devices page.
- Overlay.Step: a map assignment closes the info window in the model. The
  element instead creates a new window and closes only that one. A window
  opened on an earlier map stays open, and its close button still clears
  the selection. The click listener of an earlier map also stays attached.
  The model has one map and one window at a time, so it does not show the
  second open window this allows.
- The rest of the viewer is not part of this model: other elements, the
  store, the airspace overlay, and the server that builds the snapshot.

=== FILE: age_label.dfy ===
/**
 The age shown after a pilot's name on the newest fix: the age rounded to
 whole minutes, written `<m>min` under an hour and `<h>h<mm>` from an hour on.
 */
module AgeLabel {
  import opened Wrappers
  import opened Decimal

  const MINUTE_MS: int := 60 * 1000

  /**
   `Math.round(ageMs / 60000)`: the nearest whole number of minutes, a tie
   going up.
   */
  function RoundedMinutes(ageMs: int): (m: int)
    ensures m * 60000 - 30000 <= ageMs < m * 60000 + 30000
  {
    (ageMs + 30000) / MINUTE_MS
  }

  /** The age text for `minutes` minutes. */
  function AgeText(minutes: int): (r: string)
    ensures minutes < 60 <==> |r| >= 3 && r[|r| - 3..] == "min"
    ensures minutes >= 60 ==> |r| >= 4 && r[|r| - 3] == 'h' && AllDigits(r[|r| - 2..])
  {
    if minutes < 60 then IntToString(minutes) + "min"
    else
      var p := PadStart(NatToString(minutes % 60), 2, '0');
      PaddedMinutes(minutes % 60);
      var r := NatToString(minutes / 60) + "h" + p;
      assert r[|r| - 2..] == p;
      assert r[|r| - 3..][0] == 'h';
      r
  }

  /** `<m>min`: `m` as `String` writes it, below sixty. */
  function ParseMinutesForm(front: string): Option<int> {
    match ParseInt(front)
    case Some(m) => if m < 60 then Some(m) else None
    case None => None
  }

  /** `<h>h<mm>`: `h` at least one and without a leading zero, `mm` two digits below sixty. */
  function ParseHoursForm(front: string, mm: string): Option<int> {
    if IsCanonical(front) && AllDigits(mm) && ParseNat(front) >= 1 && ParseNat(mm) < 60
    then Some(ParseNat(front) * 60 + ParseNat(mm))
    else None
  }

  /** Reads an age text back into minutes; `None` when it is not one. */
  function ParseAge(s: string): Option<int> {
    if |s| < 3 then None
    else
      var front, tail := s[..|s| - 3], s[|s| - 3..];
      if tail == "min" then ParseMinutesForm(front)
      else if tail[0] == 'h' then ParseHoursForm(front, tail[1..])
      else None
  }

  /** Below a hundred, two digits suffice. */
  lemma TwoDigits(x: nat)
    requires x < 100
    ensures |NatToString(x)| <= 2
  {
    if x >= 10 {
      assert NatToString(x) == NatToString(x / 10) + [DigitChar(x % 10)];
    }
  }

  /** Minutes padded to two digits read back as themselves. */
  lemma PaddedMinutes(x: nat)
    requires x < 60
    ensures var p := PadStart(NatToString(x), 2, '0');
      |p| == 2 && AllDigits(p) && ParseNat(p) == x
  {
    var d := NatToString(x);
    TwoDigits(x);
    ParseNatToString(x);
    if |d| < 2 {
      assert PadStart(d, 2, '0') == "0" + d;
      ParseNatLeadingZero(d);
    }
  }

  /** Any two digits are the padded rendering of their value. */
  lemma PaddedParse(p: string)
    requires |p| == 2 && AllDigits(p)
    ensures PadStart(NatToString(ParseNat(p)), 2, '0') == p
  {
    if p[0] == '0' {
      var d := p[1..];
      assert p == "0" + d;
      ParseNatLeadingZero(d);
      NatToStringParse(d);
      assert PadStart(d, 2, '0') == "0" + d;
    } else {
      NatToStringParse(p);
    }
  }

  /** Under an hour: `<m>min` reads back as `m`. */
  lemma ParseMinutesText(minutes: int)
    requires minutes < 60
    ensures ParseAge(AgeText(minutes)) == Some(minutes)
  {
    var s := AgeText(minutes);
    var d := IntToString(minutes);
    assert s == d + "min";
    assert s[|s| - 3..] == "min";
    assert s[..|s| - 3] == d;
    ParseIntToString(minutes);
  }

  /** A text with an hour mark three from the end is the hours, the mark and two more characters. */
  lemma SplitAtHour(s: string)
    requires |s| >= 4 && s[|s| - 3] == 'h'
    ensures s == s[..|s| - 3] + "h" + s[|s| - 2..]
  {
    assert s == s[..|s| - 3] + s[|s| - 3..];
    assert s[|s| - 3..] == [s[|s| - 3]] + s[|s| - 2..];
  }

  /** A text with an hour mark before two digits, read as hours and minutes. */
  lemma ParseHoursParts(s: string)
    requires |s| >= 4 && s[|s| - 3] == 'h'
    ensures ParseAge(s) == ParseHoursForm(s[..|s| - 3], s[|s| - 2..])
  {
  }

  /** Hour digits reading `hours` and two minute digits reading `rest` make an age text of `60 * hours + rest`. */
  lemma ParseHoursOf(h: string, p: string, hours: nat, rest: nat, minutes: int)
    requires IsCanonical(h) && ParseNat(h) == hours && hours >= 1
    requires |p| == 2 && AllDigits(p) && ParseNat(p) == rest && rest < 60
    requires minutes == hours * 60 + rest
    ensures ParseAge(h + "h" + p) == Some(minutes)
  {
    var s := h + "h" + p;
    assert s[..|s| - 3] == h && s[|s| - 2..] == p;
    ParseHoursParts(s);
  }

  /** The age text from an hour on: the hours, the mark, the padded minutes. */
  lemma HoursTextParts(minutes: int)
    requires minutes >= 60
    ensures var hours, rest := minutes / 60, minutes % 60;
      && hours >= 1 && rest < 60 && hours * 60 + rest == minutes
      && AgeText(minutes) == NatToString(hours) + "h" + PadStart(NatToString(rest), 2, '0')
  {
  }

  /** From an hour on: `<h>h<mm>` reads back as `60 * h + mm`. */
  lemma ParseHoursText(minutes: int)
    requires minutes >= 60
    ensures ParseAge(AgeText(minutes)) == Some(minutes)
  {
    var hours, rest := minutes / 60, minutes % 60;
    var h, p := NatToString(hours), PadStart(NatToString(rest), 2, '0');
    HoursTextParts(minutes);
    PaddedMinutes(rest);
    ParseNatToString(hours);
    ParseHoursOf(h, p, hours, rest, minutes);
  }

  /** The age text always reads back as the minutes it was written from. */
  lemma ParseAgeText(minutes: int)
    ensures ParseAge(AgeText(minutes)) == Some(minutes)
  {
    if minutes < 60 {
      ParseMinutesText(minutes);
    } else {
      ParseHoursText(minutes);
    }
  }

  /** A `min` text that reads as `m` is the text written for `m`. */
  lemma MinutesTextOf(s: string, m: int)
    requires |s| >= 3 && s[|s| - 3..] == "min" && ParseAge(s) == Some(m)
    ensures AgeText(m) == s
  {
    var front := s[..|s| - 3];
    IntToStringParse(front, m);
    assert s == front + "min";
  }

  /** An `h` text that reads as `m` is the text written for `m`. */
  lemma HoursTextOf(s: string, m: int)
    requires |s| >= 4 && s[|s| - 3] == 'h' && ParseAge(s) == Some(m)
    ensures AgeText(m) == s
  {
    var front, mm := s[..|s| - 3], s[|s| - 2..];
    ParseHoursParts(s);
    var hours, rest := ParseNat(front), ParseNat(mm);
    assert m == hours * 60 + rest;
    assert m / 60 == hours && m % 60 == rest;
    NatToStringParse(front);
    PaddedParse(mm);
    SplitAtHour(s);
  }

  /** Only age texts are read: whatever `ParseAge` accepts is the text written for the minutes it reads. */
  lemma AgeTextOfParse(s: string, m: int)
    requires ParseAge(s) == Some(m)
    ensures AgeText(m) == s
  {
    var tail := s[|s| - 3..];
    if tail == "min" {
      MinutesTextOf(s, m);
    } else {
      assert tail[0] == 'h' && |s[..|s| - 3]| >= 1;
      HoursTextOf(s, m);
    }
  }

  /** A text reads as `m` exactly when it is the age text for `m`. */
  lemma ParseAgeIff(s: string, m: int)
    ensures ParseAge(s) == Some(m) <==> s == AgeText(m)
  {
    if ParseAge(s) == Some(m) {
      AgeTextOfParse(s, m);
    }
    if s == AgeText(m) {
      ParseAgeText(m);
    }
  }

  /** 45 minutes read `45min`; 125 minutes read `2h05`. */
  lemma AgeTextExamples()
    ensures AgeText(45) == "45min"
    ensures AgeText(125) == "2h05"
  {
    assert NatToString(45) == NatToString(4) + [DigitChar(5)] == "45";
    assert PadStart("5", 2, '0') == "05";
  }
}

=== FILE: decimal.dfy ===
/**
 The decimal rendering JavaScript applies to safe integers (`String(n)`,
 template-literal interpolation) and `String.prototype.padStart`, together
 with the parser that undoes it.
 */
module Decimal {
  import opened Wrappers

  predicate IsDigit(c: char) {
    '0' <= c <= '9'
  }

  predicate AllDigits(s: string) {
    forall i :: 0 <= i < |s| ==> IsDigit(s[i])
  }

  function DigitValue(c: char): (d: nat)
    requires IsDigit(c)
    ensures d < 10
  {
    (c as int) - ('0' as int)
  }

  function DigitChar(d: nat): (c: char)
    requires d < 10
    ensures IsDigit(c) && DigitValue(c) == d
  {
    (('0' as int) + d) as char
  }

  /** Digits of `n`, most significant first, with no leading zero. */
  function NatToString(n: nat): (s: string)
    ensures |s| >= 1 && AllDigits(s)
    ensures s[0] == '0' ==> n == 0
    ensures n < 10 <==> |s| == 1
    decreases n
  {
    if n < 10 then [DigitChar(n)] else NatToString(n / 10) + [DigitChar(n % 10)]
  }

  /** `String(i)` for an integral number: a minus sign, then the digits. */
  function IntToString(i: int): (s: string)
    ensures |s| >= 1
    ensures i >= 0 ==> AllDigits(s)
    ensures i < 0 ==> s[0] == '-' && AllDigits(s[1..])
  {
    if i < 0 then "-" + NatToString(-i) else NatToString(i)
  }

  /** The value of a run of decimal digits. */
  function ParseNat(s: string): nat
    requires AllDigits(s)
  {
    if s == [] then 0 else ParseNat(s[..|s| - 1]) * 10 + DigitValue(s[|s| - 1])
  }

  /** Digits as `NatToString` writes them: at least one, and no leading zero. */
  predicate IsCanonical(s: string) {
    |s| >= 1 && AllDigits(s) && (s[0] == '0' ==> |s| == 1)
  }

  /** Reads back what `IntToString` writes; `None` for anything else. */
  function ParseInt(s: string): Option<int> {
    if |s| >= 2 && s[0] == '-' && IsCanonical(s[1..]) && s[1..] != "0" then Some(0 - ParseNat(s[1..]) as int)
    else if IsCanonical(s) then Some(ParseNat(s))
    else None
  }

  lemma {:induction false} ParseNatToString(n: nat)
    ensures ParseNat(NatToString(n)) == n
    decreases n
  {
    var s := NatToString(n);
    if n >= 10 {
      ParseNatToString(n / 10);
      assert s[..|s| - 1] == NatToString(n / 10);
    }
  }

  lemma ParseIntToString(i: int)
    ensures ParseInt(IntToString(i)) == Some(i)
  {
    var s := IntToString(i);
    if i < 0 {
      var d := NatToString(-i);
      assert s == "-" + d;
      assert s[1..] == d;
      ParseNatToString(-i);
      assert d != "0";
    } else {
      assert IsDigit(s[0]);
      ParseNatToString(i);
    }
  }

  /** Canonical digits are what `NatToString` writes for their value. */
  lemma {:induction false} NatToStringParse(s: string)
    requires IsCanonical(s)
    ensures NatToString(ParseNat(s)) == s
    decreases |s|
  {
    var front, last := s[..|s| - 1], s[|s| - 1];
    var d := DigitValue(last);
    if |s| == 1 {
      assert front == [];
      assert DigitChar(d) == last;
    } else {
      assert front[0] == s[0];
      NatToStringParse(front);
      assert ParseNat(front) != 0;
      var n := ParseNat(s);
      assert n / 10 == ParseNat(front) && n % 10 == d;
      assert DigitChar(d) == last;
      assert s == front + [last];
    }
  }

  /** Whatever `ParseInt` reads is what `IntToString` writes for the value read. */
  lemma IntToStringParse(s: string, i: int)
    requires ParseInt(s) == Some(i)
    ensures IntToString(i) == s
  {
    if |s| >= 2 && s[0] == '-' && IsCanonical(s[1..]) && s[1..] != "0" {
      NatToStringParse(s[1..]);
      assert s == "-" + s[1..];
    } else {
      NatToStringParse(s);
    }
  }

  /** `ParseInt` and `IntToString` are inverse: a text reads as `i` exactly when it is `i` written out. */
  lemma ParseIntIff(s: string, i: int)
    ensures ParseInt(s) == Some(i) <==> s == IntToString(i)
  {
    if ParseInt(s) == Some(i) {
      IntToStringParse(s, i);
    }
    if s == IntToString(i) {
      ParseIntToString(i);
    }
  }

  /** A leading zero does not change the value of a run of digits. */
  lemma {:induction false} ParseNatLeadingZero(s: string)
    requires AllDigits(s)
    ensures AllDigits("0" + s) && ParseNat("0" + s) == ParseNat(s)
    decreases |s|
  {
    if s != [] {
      var t := "0" + s;
      assert t[..|t| - 1] == "0" + s[..|s| - 1];
      ParseNatLeadingZero(s[..|s| - 1]);
    } else {
      assert "0" + s == "0";
      assert "0"[..0] == [];
    }
  }

  /** `s.padStart(width, fill)`: `fill` repeated in front until `s` is `width` long. */
  function PadStart(s: string, width: nat, fill: char): (r: string)
    ensures |r| == if |s| < width then width else |s|
    ensures r[|r| - |s|..] == s
    ensures forall i :: 0 <= i < |r| - |s| ==> r[i] == fill
  {
    if |s| < width then seq(width - |s|, _ => fill) + s else s
  }
}

=== FILE: features.dfy ===
/**
 The features of the live-tracking snapshot: fixes (points) and tracks (line
 strings) with the properties the overlay reads. A property the snapshot may
 leave out is an `Option`, or a `bool` whose absence reads as `false`.
 */
module Features {
  import opened Wrappers

  /** The geometry type a feature reports; only `Point` and `LineString` are styled. */
  datatype Geometry = Point | LineString | OtherGeometry(kind: string)

  datatype Props = Props(
    name: string,            // pilot name
    ts: int,                 // time of the fix, epoch milliseconds
    firstTs: int,            // time of the first fix of a track, epoch milliseconds
    alt: int,                // altitude, metres
    speed: Option<int>,      // km/h
    bearing: Option<int>,    // degrees, present on the newest fix only
    msg: Option<string>,     // free-form message
    emergency: bool,
    valid: Option<bool>,     // whether the GPS fix is valid
    isLastFix: bool          // the newest fix of its track
  )

  /** A feature object on the map; `id` stands for its object identity. */
  datatype Feature = Feature(id: nat, geometry: Geometry, props: Props)

  /** A message is shown only when it is a non-empty string (JavaScript truthiness). */
  predicate HasMessage(p: Props) {
    p.msg.Some? && p.msg.value != ""
  }
}

=== FILE: overlay.dfy ===
/**
 The live-tracking overlay as one state machine: the polling timer, the
 features it shows, the attached map's data layer, the selected pilot, the
 info window and the name-display preference, driven by the events the
 element listens to. The style the map draws is not state: it is
 `Style.StyleOf` applied to the state's fields whenever the map asks.
 */
module Overlay {
  import opened Wrappers
  import opened Features
  import opened Style
  import opened PopupContent
  import opened Polling
  import opened Reconcile

  datatype Popup = Closed | Open(content: seq<Line>)

  datatype State = State(
    fetchId: Option<TimerId>,     // the running interval timer
    features: seq<Feature>,       // the features added by the last applied snapshot
    layer: Option<Layer>,         // the data layer of the attached map
    currentName: Option<string>,  // the pilot whose info window is open
    popup: Popup,
    displayNames: bool,
    listening: bool               // the visibility listener is attached to the document
  )

  /** A freshly connected element: no timer, no features, no map, names shown, listening. */
  const Initial: State := State(None, [], None, None, Closed, true, true)

  datatype Event =
    | MapSet(data: Option<Layer>, visible: bool, newTimer: TimerId)  // `map` assigned; `visible` is the page's visibility
    | VisibilityChanged(visible: bool, newTimer: TimerId)
    | IntervalFired(id: TimerId)
    | SnapshotArrived(snapshot: Option<seq<Feature>>)                // `None`: a response that was not ok
    | FeatureClicked(feature: Feature)
    | CloseClicked
    | PreferenceChanged(displayNames: bool)
    | Connected                                                      // `connectedCallback`
    | Disconnected                                                   // `disconnectedCallback`

  /** The style the map draws `f` with in state `s` at time `now`. */
  function StyleIn(s: State, f: Feature, now: int): Style {
    StyleOf(f, now, s.displayNames, s.currentName)
  }

  /** An open info window is about the selected pilot: its first line is that pilot's name. */
  predicate PopupShowsSelection(s: State) {
    s.popup.Open? ==>
      |s.popup.content| >= 1 && s.popup.content[0].NameLine? && s.currentName == Some(s.popup.content[0].name)
  }

  /** `handleVisibility` on the element: only the timer changes, and at most one fetch is made. */
  function Polled(s: State, visible: bool, newTimer: TimerId): (r: (State, seq<Effect>))
    ensures r.0.(fetchId := s.fetchId) == s
    ensures (r.0.fetchId.Some? <==> visible) && (Fetch in r.1 <==> visible && s.fetchId.None?)
    ensures CountFetches(r.1) == CountStarts(r.1) <= 1
    ensures visible && s.fetchId.Some? ==> r == (s, [])
    ensures Disciplined(s.fetchId, r.1) && LiveAfter(s.fetchId, r.1) == r.0.fetchId
  {
    var v := HandleVisibility(s.fetchId, visible, newTimer);
    (s.(fetchId := v.0), v.1)
  }

  /** Clicking a fix opens its info window and selects its pilot; other clicks do nothing. */
  function Clicked(s: State, f: Feature): State {
    if f.geometry.Point? && s.layer.Some? then
      s.(currentName := Some(f.props.name), popup := Open(Content(f.props)))
    else s
  }

  /** One event: the state after it and the timer and fetch calls it makes. */
  function Step(s: State, e: Event): (r: (State, seq<Effect>))
    ensures Disciplined(s.fetchId, r.1) && LiveAfter(s.fetchId, r.1) == r.0.fetchId
    ensures e.MapSet? && e.data.None? ==> r == (s.(layer := None), [])
    ensures e.IntervalFired? ==> r == (s, if s.fetchId == Some(e.id) then [Fetch] else [])
    ensures e.FeatureClicked? && e.feature.geometry.Point? && s.layer.Some? ==>
      r == (s.(currentName := Some(e.feature.props.name), popup := Open(Content(e.feature.props))), [])
    ensures e.CloseClicked? ==> r == (s.(currentName := None, popup := Closed), [])
    ensures e.SnapshotArrived? ==>
      var o := ApplySnapshot(s.features, s.layer, e.snapshot);
      r == (s.(features := o.features, layer := o.layer), [])
    ensures e.PreferenceChanged? ==> r == (s.(displayNames := e.displayNames), [])
    ensures e.Connected? ==> r == (s.(listening := true), [])
    ensures e.VisibilityChanged? && !s.listening ==> r == (s, [])
    ensures e.Disconnected? ==> r == (s.(listening := false), [])
    ensures Fetch in r.1 ==>
      || (e.VisibilityChanged? && s.listening && s.fetchId.None?)
      || (e.MapSet? && s.fetchId.None?)
      || (e.IntervalFired? && s.fetchId == Some(e.id))
    ensures e.FeatureClicked? && e.feature.geometry.Point? && s.layer.Some? ==>
      r.0.currentName == Some(e.feature.props.name) && r.0.popup == Open(Content(e.feature.props))
    ensures e.FeatureClicked? && !(e.feature.geometry.Point? && s.layer.Some?) ==> r == (s, [])
    ensures e.CloseClicked? ==> r.0.currentName == None && r.0.popup == Closed
    ensures !e.SnapshotArrived? && !e.MapSet? ==> r.0.features == s.features && r.0.layer == s.layer
    ensures PopupShowsSelection(s) ==> PopupShowsSelection(r.0)
  {
    match e
    case MapSet(data, visible, newTimer) =>
      if data.Some? then
        Polled(s.(layer := data, popup := Closed), visible, newTimer)
      else (s.(layer := None), [])
    case VisibilityChanged(visible, newTimer) => if s.listening then Polled(s, visible, newTimer) else (s, [])
    case IntervalFired(id) => (s, if s.fetchId == Some(id) then [Fetch] else [])
    case SnapshotArrived(snapshot) =>
      var o := ApplySnapshot(s.features, s.layer, snapshot);
      (s.(features := o.features, layer := o.layer), [])
    case FeatureClicked(f) => (Clicked(s, f), [])
    case CloseClicked => (s.(currentName := None, popup := Closed), [])
    case PreferenceChanged(show) => (s.(displayNames := show), [])
    case Connected => (s.(listening := true), [])
    case Disconnected => (s.(listening := false), [])
  }

  /** The events in order: the final state and every call made on the way. */
  /** What a new map or a visibility change does to polling: a timer runs
      exactly while the page is visible, a fresh timer fetches at once, and
      nothing else in the state moves. */
  lemma StepPolls(s: State, e: Event)
    ensures e.VisibilityChanged? && s.listening ==>
      var r := Step(s, e);
      && r.0.(fetchId := s.fetchId) == s
      && (r.0.fetchId.Some? <==> e.visible) && (Fetch in r.1 <==> e.visible && s.fetchId.None?)
      && CountFetches(r.1) == CountStarts(r.1) <= 1
      && (e.visible && s.fetchId.Some? ==> r == (s, []))
    ensures e.MapSet? && e.data.Some? ==>
      var r := Step(s, e);
      && r.0.(fetchId := s.fetchId) == s.(layer := e.data, popup := Closed)
      && r.0.layer == e.data && r.0.popup == Closed
      && (r.0.fetchId.Some? <==> e.visible) && (Fetch in r.1 <==> e.visible && s.fetchId.None?)
      && CountFetches(r.1) == CountStarts(r.1) <= 1
      && (e.visible && s.fetchId.Some? ==> r.0.fetchId == s.fetchId && r.1 == [])
  {
  }

  function Run(s: State, events: seq<Event>): (r: (State, seq<Effect>))
    decreases |events|
  {
    if events == [] then (s, [])
    else
      var before := Run(s, events[..|events| - 1]);
      var step := Step(before.0, events[|events| - 1]);
      (step.0, before.1 + step.1)
  }

  /**
   Whatever happens, the element never starts a second timer while one runs,
   clears only the running one, leaves `fetchId` naming the running one, and
   an open info window is about the selected pilot.
   */
  lemma {:induction false} RunKeepsInvariants(s: State, events: seq<Event>)
    requires PopupShowsSelection(s)
    ensures var r := Run(s, events);
      Disciplined(s.fetchId, r.1) && LiveAfter(s.fetchId, r.1) == r.0.fetchId && PopupShowsSelection(r.0)
    decreases |events|
  {
    if events != [] {
      var before := Run(s, events[..|events| - 1]);
      var step := Step(before.0, events[|events| - 1]);
      RunKeepsInvariants(s, events[..|events| - 1]);
      DisciplinedConcat(s.fetchId, before.1, step.1);
    }
  }

  /** From a fresh element: at most one timer at any time, and the info window matches the selection. */
  lemma FromInitial(events: seq<Event>)
    ensures var r := Run(Initial, events);
      Disciplined(None, r.1) && LiveAfter(None, r.1) == r.0.fetchId && PopupShowsSelection(r.0)
  {
    RunKeepsInvariants(Initial, events);
  }

  /**
   Clicking Alice's fix and then Bob's leaves one window open, Bob's; Bob's
   track is drawn thick and Alice's goes back to the normal weight.
   */
  lemma SecondClickMovesHighlight(s: State, alice: Feature, bob: Feature, aliceTrack: Feature, bobTrack: Feature, now: int)
    requires s.layer.Some?
    requires alice.geometry.Point? && bob.geometry.Point?
    requires aliceTrack.geometry.LineString? && bobTrack.geometry.LineString?
    requires aliceTrack.props.name == alice.props.name && bobTrack.props.name == bob.props.name
    requires bob.props.name != "" && alice.props.name != bob.props.name
    ensures var s2 := Run(s, [FeatureClicked(alice), FeatureClicked(bob)]).0;
      && s2.popup == Open(Content(bob.props))
      && s2.currentName == Some(bob.props.name)
      && StyleIn(s2, bobTrack, now).strokeWeight == 4
      && StyleIn(s2, aliceTrack, now).strokeWeight == 1
  {
    var events := [FeatureClicked(alice), FeatureClicked(bob)];
    assert events[..1] == [FeatureClicked(alice)];
    assert events[..1][..0] == [];
    assert Run(s, events[..1][..0]) == (s, []);
    var s1 := Run(s, events[..1]).0;
    assert s1 == Step(s, FeatureClicked(alice)).0;
    assert s1.layer.Some?;
  }

  /**
   Disconnecting removes the visibility listener but leaves the timer
   running: it keeps fetching, and hiding the page no longer stops it.
   */
  lemma PollingOutlivesDisconnect(s: State, id: TimerId, newTimer: TimerId)
    requires s.fetchId == Some(id)
    ensures var r := Run(s, [Disconnected, VisibilityChanged(false, newTimer), IntervalFired(id)]);
      r.0.fetchId == Some(id) && r.1 == [Fetch]
  {
    var s1 := s.(listening := false);
    assert Run(s, []) == (s, []);
    RunSnoc(s, [], Disconnected);
    assert [] + [Disconnected] == [Disconnected];
    assert Step(s, Disconnected) == (s1, []);
    var none: seq<Effect> := [];
    assert none + none == none;
    assert Run(s, [Disconnected]) == (s1, []);
    RunSnoc(s, [Disconnected], VisibilityChanged(false, newTimer));
    assert [Disconnected] + [VisibilityChanged(false, newTimer)] == [Disconnected, VisibilityChanged(false, newTimer)];
    RunSnoc(s, [Disconnected, VisibilityChanged(false, newTimer)], IntervalFired(id));
    assert [Disconnected, VisibilityChanged(false, newTimer)] + [IntervalFired(id)]
      == [Disconnected, VisibilityChanged(false, newTimer), IntervalFired(id)];
  }

  /** Running one more event is one more step. */
  lemma RunSnoc(s: State, events: seq<Event>, e: Event)
    ensures var before := Run(s, events);
      var step := Step(before.0, e);
      Run(s, events + [e]) == (step.0, before.1 + step.1)
  {
    assert (events + [e])[..|events|] == events;
  }

  /** Closing the window unselects: no track is drawn thick any more. */
  lemma CloseClearsHighlight(s: State, track: Feature, now: int)
    requires track.geometry.LineString?
    ensures StyleIn(Step(s, CloseClicked).0, track, now).strokeWeight == 1
  {
  }

  /** A snapshot that arrives after the page was hidden is still applied. */
  lemma SnapshotAppliedWhileHidden(s: State, added: seq<Feature>)
    requires s.fetchId.None? && s.layer.Some?
    ensures Step(s, SnapshotArrived(Some(added))).0.features == added
  {
  }
}

=== FILE: polling.dfy ===
/**
 Polling of the tracker snapshot tied to page visibility. The overlay holds
 at most one interval timer (`fetchId`); the model records the calls the
 element makes to `fetch`, `setInterval` and `clearInterval` as effects.
 */
module Polling {
  import opened Wrappers

  /** What `setInterval` returns. */
  type TimerId = nat

  /** Two minutes between fetches. */
  const POLL_PERIOD_MS: nat := 2 * 60 * 1000

  datatype Effect =
    | Fetch                                         // one request for the snapshot
    | StartInterval(id: TimerId, periodMs: nat)     // a recurring fetch
    | ClearInterval(id: TimerId)

  /**
   Whether `effects`, played from a state where `live` is the running timer,
   never starts a timer while one runs and only clears the running one.
   */
  predicate Disciplined(live: Option<TimerId>, effects: seq<Effect>)
    decreases |effects|
  {
    if effects == [] then true
    else match effects[0]
      case Fetch => Disciplined(live, effects[1..])
      case StartInterval(id, _) => live.None? && Disciplined(Some(id), effects[1..])
      case ClearInterval(id) => live == Some(id) && Disciplined(None, effects[1..])
  }

  /** The running timer after `effects`. */
  function LiveAfter(live: Option<TimerId>, effects: seq<Effect>): Option<TimerId>
    decreases |effects|
  {
    if effects == [] then live
    else match effects[0]
      case Fetch => LiveAfter(live, effects[1..])
      case StartInterval(id, _) => LiveAfter(Some(id), effects[1..])
      case ClearInterval(_) => LiveAfter(None, effects[1..])
  }

  function CountFetches(effects: seq<Effect>): nat {
    if effects == [] then 0 else (if effects[0].Fetch? then 1 else 0) + CountFetches(effects[1..])
  }

  function CountStarts(effects: seq<Effect>): nat {
    if effects == [] then 0 else (if effects[0].StartInterval? then 1 else 0) + CountStarts(effects[1..])
  }

  lemma {:induction false} DisciplinedConcat(live: Option<TimerId>, a: seq<Effect>, b: seq<Effect>)
    ensures Disciplined(live, a + b) <==> Disciplined(live, a) && Disciplined(LiveAfter(live, a), b)
    ensures LiveAfter(live, a + b) == LiveAfter(LiveAfter(live, a), b)
    decreases |a|
  {
    if a == [] {
      assert a + b == b;
    } else {
      assert (a + b)[0] == a[0] && (a + b)[1..] == a[1..] + b;
      match a[0]
      case Fetch => DisciplinedConcat(live, a[1..], b);
      case StartInterval(id, _) => DisciplinedConcat(Some(id), a[1..], b);
      case ClearInterval(_) => DisciplinedConcat(None, a[1..], b);
    }
  }

  lemma {:induction false} CountConcat(a: seq<Effect>, b: seq<Effect>)
    ensures CountFetches(a + b) == CountFetches(a) + CountFetches(b)
    ensures CountStarts(a + b) == CountStarts(a) + CountStarts(b)
    decreases |a|
  {
    if a == [] {
      assert a + b == b;
    } else {
      assert (a + b)[1..] == a[1..] + b;
      CountConcat(a[1..], b);
    }
  }

  /**
   `handleVisibility`: on a visible page without a timer, fetch once and
   start the two-minute timer (`newTimer` is the id `setInterval` hands back);
   on a hidden page with a timer, clear it; otherwise do nothing.
   */
  function HandleVisibility(fetchId: Option<TimerId>, visible: bool, newTimer: TimerId): (r: (Option<TimerId>, seq<Effect>))
    ensures visible ==> r.0.Some?
    ensures !visible ==> r.0.None?
    ensures Fetch in r.1 <==> visible && fetchId.None?
    ensures visible && fetchId.Some? ==> r.0 == fetchId && r.1 == []
    ensures Disciplined(fetchId, r.1) && LiveAfter(fetchId, r.1) == r.0
    ensures CountFetches(r.1) == CountStarts(r.1) <= 1
    ensures forall k :: 0 <= k < |r.1| && r.1[k].StartInterval? ==> r.1[k].periodMs == POLL_PERIOD_MS
  {
    if visible then
      if fetchId.None? then
        var effects := [Fetch, StartInterval(newTimer, POLL_PERIOD_MS)];
        var rest := effects[1..];
        assert rest == [StartInterval(newTimer, POLL_PERIOD_MS)] && rest[1..] == [];
        assert Disciplined(Some(newTimer), rest[1..]) && LiveAfter(Some(newTimer), rest[1..]) == Some(newTimer);
        assert Disciplined(None, rest) && LiveAfter(None, rest) == Some(newTimer);
        assert CountFetches(rest) == 0 && CountStarts(rest) == 1;
        (Some(newTimer), effects)
      else (fetchId, [])
    else
      if fetchId.Some? then (None, [ClearInterval(fetchId.value)])
      else (None, [])
  }

  /** A run of visibility changes, each with the id a new timer would get. */
  function RunVisibility(fetchId: Option<TimerId>, changes: seq<(bool, TimerId)>): (r: (Option<TimerId>, seq<Effect>))
    decreases |changes|
  {
    if changes == [] then (fetchId, [])
    else
      var before := RunVisibility(fetchId, changes[..|changes| - 1]);
      var last := changes[|changes| - 1];
      var step := HandleVisibility(before.0, last.0, last.1);
      (step.0, before.1 + step.1)
  }

  /**
   However visibility changes, no second timer is ever started while one
   runs, only the running timer is cleared, the timer left running is
   `fetchId`, and every fetch comes with the start of a timer.
   */
  lemma {:induction false} VisibilityKeepsOneTimer(fetchId: Option<TimerId>, changes: seq<(bool, TimerId)>)
    ensures var r := RunVisibility(fetchId, changes);
      Disciplined(fetchId, r.1) && LiveAfter(fetchId, r.1) == r.0 && CountFetches(r.1) == CountStarts(r.1)
    decreases |changes|
  {
    if changes != [] {
      var before := RunVisibility(fetchId, changes[..|changes| - 1]);
      var last := changes[|changes| - 1];
      var step := HandleVisibility(before.0, last.0, last.1);
      VisibilityKeepsOneTimer(fetchId, changes[..|changes| - 1]);
      DisciplinedConcat(fetchId, before.1, step.1);
      CountConcat(before.1, step.1);
    }
  }

  /** Hidden, then visible twice: one fetch, one timer, still running at the end. */
  lemma HiddenThenVisibleTwice(fetchId: Option<TimerId>, t1: TimerId, t2: TimerId, t3: TimerId)
    ensures var r := RunVisibility(fetchId, [(false, t1), (true, t2), (true, t3)]);
      r.0 == Some(t2) && CountFetches(r.1) == 1 && CountStarts(r.1) == 1
  {
    var changes: seq<(bool, TimerId)> := [(false, t1), (true, t2), (true, t3)];
    assert changes[..2] == [(false, t1), (true, t2)];
    assert changes[..2][..1] == [(false, t1)];
    assert changes[..2][..1][..0] == [];
    var r0 := RunVisibility(fetchId, changes[..2][..1][..0]);
    assert r0 == (fetchId, []);
    var r1 := RunVisibility(fetchId, changes[..2][..1]);
    assert r1.0 == None;
    var r2 := RunVisibility(fetchId, changes[..2]);
    assert r2.0 == Some(t2) && r2.1 == r1.1 + [Fetch, StartInterval(t2, POLL_PERIOD_MS)];
    CountConcat(r1.1, [Fetch, StartInterval(t2, POLL_PERIOD_MS)]);
    var r3 := RunVisibility(fetchId, changes);
    assert r3.1 == r2.1 + [];
    assert r2.1 + [] == r2.1;
    assert r1.1 == [] + HandleVisibility(fetchId, false, t1).1;
    assert CountFetches(r1.1) == 0 && CountStarts(r1.1) == 0 by {
      if fetchId.Some? {
        assert r1.1 == [ClearInterval(fetchId.value)];
      } else {
        assert r1.1 == [];
      }
    }
  }
}

=== FILE: popup_content.dfy ===
/**
 The lines of the info window opened on a clicked fix. The HTML and the
 formatting of dates, altitudes and speeds are not modelled; a line records
 what it shows.
 */
module PopupContent {
  import opened Wrappers
  import opened Features

  datatype Line =
    | NameLine(name: string)
    | WhenLine(ts: int)                          // local date and time of the fix
    | AltitudeLine(alt: int, speed: Option<int>) // altitude, and the speed when known
    | DirectionsLine                             // link to directions to the fix
    | MessageLine(msg: string)
    | EmergencyLine
    | WarningLine                                // the invalid-fix warning, in three lines
    | InvalidFixLine
    | MightDifferLine

  /** The place of each kind of line in the window, top to bottom. */
  function Rank(l: Line): nat {
    match l
    case NameLine(_) => 0
    case WhenLine(_) => 1
    case AltitudeLine(_, _) => 2
    case DirectionsLine => 3
    case MessageLine(_) => 4
    case EmergencyLine => 5
    case WarningLine => 6
    case InvalidFixLine => 7
    case MightDifferLine => 8
  }

  /** Lines strictly in window order: no kind twice, none out of place. */
  predicate InWindowOrder(s: seq<Line>) {
    forall i, j :: 0 <= i < j < |s| ==> Rank(s[i]) < Rank(s[j])
  }

  /** Lines in window order, all of them ranked at least `low`. */
  predicate OrderedFrom(s: seq<Line>, low: nat) {
    InWindowOrder(s) && forall i :: 0 <= i < |s| ==> low <= Rank(s[i])
  }

  lemma OrderedConcat(s: seq<Line>, t: seq<Line>, low: nat, mid: nat)
    requires OrderedFrom(s, low) && OrderedFrom(t, mid)
    requires low <= mid && forall i :: 0 <= i < |s| ==> Rank(s[i]) < mid
    ensures OrderedFrom(s + t, low)
  {
    var st := s + t;
    forall i, j | 0 <= i < j < |st|
      ensures Rank(st[i]) < Rank(st[j])
    {
      if j < |s| {
        assert st[i] == s[i] && st[j] == s[j];
      } else if i < |s| {
        assert st[i] == s[i] && st[j] == t[j - |s|];
      } else {
        assert st[i] == t[i - |s|] && st[j] == t[j - |s|];
      }
    }
  }

  /** Name, date and time, altitude and speed, directions. */
  function BaseLines(p: Props): seq<Line> {
    [NameLine(p.name), WhenLine(p.ts), AltitudeLine(p.alt, p.speed), DirectionsLine]
  }

  function MessageLines(p: Props): seq<Line> {
    if HasMessage(p) then [MessageLine(p.msg.value)] else []
  }

  function EmergencyLines(p: Props): seq<Line> {
    if p.emergency then [EmergencyLine] else []
  }

  /** Only an explicit `valid: false` warns; a missing flag does not. */
  function WarningLines(p: Props): seq<Line> {
    if p.valid == Some(false) then [WarningLine, InvalidFixLine, MightDifferLine] else []
  }

  lemma MessageLinesRanked(p: Props)
    ensures OrderedFrom(MessageLines(p), 4) && forall i :: 0 <= i < |MessageLines(p)| ==> Rank(MessageLines(p)[i]) < 5
  {
    if HasMessage(p) {
      assert MessageLines(p) == [MessageLine(p.msg.value)];
    }
  }

  lemma EmergencyLinesRanked(p: Props)
    ensures OrderedFrom(EmergencyLines(p), 5) && forall i :: 0 <= i < |EmergencyLines(p)| ==> Rank(EmergencyLines(p)[i]) < 6
  {
  }

  lemma WarningLinesRanked(p: Props)
    ensures OrderedFrom(WarningLines(p), 6)
  {
    var w := WarningLines(p);
    if p.valid == Some(false) {
      assert w == [WarningLine, InvalidFixLine, MightDifferLine];
      assert forall i :: 0 <= i < |w| ==> Rank(w[i]) == 6 + i;
    }
  }

  lemma OptionalLinesOrdered(p: Props)
    ensures OrderedFrom(MessageLines(p) + (EmergencyLines(p) + WarningLines(p)), 4)
  {
    MessageLinesRanked(p);
    EmergencyLinesRanked(p);
    WarningLinesRanked(p);
    OrderedConcat(EmergencyLines(p), WarningLines(p), 5, 6);
    OrderedConcat(MessageLines(p), EmergencyLines(p) + WarningLines(p), 4, 5);
  }

  /** The base lines followed by the optional ones. */
  function Assemble(p: Props): seq<Line> {
    BaseLines(p) + (MessageLines(p) + (EmergencyLines(p) + WarningLines(p)))
  }

  lemma MessageMembers(p: Props, m: string)
    ensures MessageLine(m) in Assemble(p) <==> HasMessage(p) && p.msg == Some(m)
  {
  }

  lemma FlagMembers(p: Props)
    ensures EmergencyLine in Assemble(p) <==> p.emergency
    ensures InvalidFixLine in Assemble(p) <==> p.valid == Some(false)
    ensures WarningLine in Assemble(p) <==> p.valid == Some(false)
    ensures MightDifferLine in Assemble(p) <==> p.valid == Some(false)
  {
  }

  lemma WarningLast(p: Props)
    ensures var r := Assemble(p);
      p.valid == Some(false) ==> |r| >= 3 && r[|r| - 3..] == [WarningLine, InvalidFixLine, MightDifferLine]
  {
  }

  /**
   The window's lines: the base lines, then the message, then the emergency
   flag, then the invalid-fix warning.
   */
  function Content(p: Props): (r: seq<Line>)
    ensures |r| >= 4 && r[..4] == BaseLines(p)
    ensures InWindowOrder(r)
    ensures forall m :: MessageLine(m) in r <==> HasMessage(p) && p.msg == Some(m)
    ensures EmergencyLine in r <==> p.emergency
    ensures InvalidFixLine in r <==> p.valid == Some(false)
    ensures WarningLine in r <==> p.valid == Some(false)
    ensures MightDifferLine in r <==> p.valid == Some(false)
    ensures p.valid == Some(false) ==> r[|r| - 3..] == [WarningLine, InvalidFixLine, MightDifferLine]
  {
    OptionalLinesOrdered(p);
    OrderedConcat(BaseLines(p), MessageLines(p) + (EmergencyLines(p) + WarningLines(p)), 0, 4);
    FlagMembers(p);
    WarningLast(p);
    forall m ensures MessageLine(m) in Assemble(p) <==> HasMessage(p) && p.msg == Some(m) {
      MessageMembers(p, m);
    }
    Assemble(p)
  }
}

=== FILE: reconcile.dfy ===
/**
 Applying a fetched snapshot to the map: the new features are added to the
 data layer first and the previous ones removed one by one afterwards, so the
 layer never goes without the new features while the previous ones disappear.
 */
module Reconcile {
  import opened Wrappers
  import opened Features

  /** The features on the map's data layer, in the order they were added. */
  type Layer = seq<Feature>

  function IdsOf(fs: seq<Feature>): set<nat> {
    set f | f in fs :: f.id
  }

  /** The layer without the features whose identity is in `ids`; the rest keep their order. */
  function Strip(l: Layer, ids: set<nat>): (r: Layer)
    ensures forall f :: f in r <==> f in l && f.id !in ids
    ensures |r| <= |l|
  {
    if l == [] then []
    else
      assert l == [l[0]] + l[1..];
      (if l[0].id in ids then [] else [l[0]]) + Strip(l[1..], ids)
  }

  lemma {:induction false} StripConcat(a: Layer, b: Layer, ids: set<nat>)
    ensures Strip(a + b, ids) == Strip(a, ids) + Strip(b, ids)
    decreases |a|
  {
    if a == [] {
      assert a + b == b;
    } else {
      assert (a + b)[0] == a[0] && (a + b)[1..] == a[1..] + b;
      StripConcat(a[1..], b, ids);
    }
  }

  lemma {:induction false} StripTwice(l: Layer, a: set<nat>, b: set<nat>)
    ensures Strip(Strip(l, a), b) == Strip(l, a + b)
    decreases |l|
  {
    if l != [] {
      StripTwice(l[1..], a, b);
      var head := if l[0].id in a then [] else [l[0]];
      StripConcat(head, Strip(l[1..], a), b);
      if l[0].id !in a {
        assert Strip(head, b) == if l[0].id in b then [] else [l[0]] by {
          assert head[1..] == [];
        }
      }
    }
  }

  /** Every identity of a tail is an identity of the whole. */
  lemma IdsOfTail(fs: seq<Feature>)
    requires fs != []
    ensures fs[0].id in IdsOf(fs) && IdsOf(fs[1..]) <= IdsOf(fs)
  {
    assert fs[0] in fs;
    forall x | x in IdsOf(fs[1..]) ensures x in IdsOf(fs) {
      var f :| f in fs[1..] && f.id == x;
      assert f in fs;
    }
  }

  lemma {:induction false} StripUntouched(l: Layer, ids: set<nat>)
    requires IdsOf(l) !! ids
    ensures Strip(l, ids) == l
    decreases |l|
  {
    if l != [] {
      IdsOfTail(l);
      StripUntouched(l[1..], ids);
      assert l == [l[0]] + l[1..];
    }
  }

  lemma StripUntouchedWhenDisjoint(l: Layer, ids: set<nat>)
    ensures IdsOf(l) !! ids ==> Strip(l, ids) == l
  {
    if IdsOf(l) !! ids {
      StripUntouched(l, ids);
    }
  }

  lemma {:induction false} StripCovered(l: Layer, ids: set<nat>)
    requires IdsOf(l) <= ids
    ensures Strip(l, ids) == []
    decreases |l|
  {
    if l != [] {
      IdsOfTail(l);
      StripCovered(l[1..], ids);
    }
  }

  lemma IdsOfCons(fs: seq<Feature>)
    requires fs != []
    ensures IdsOf(fs) == {fs[0].id} + IdsOf(fs[1..])
  {
    IdsOfTail(fs);
    forall x | x in IdsOf(fs) ensures x in {fs[0].id} + IdsOf(fs[1..]) {
      var f :| f in fs && f.id == x;
      if f != fs[0] {
        assert f in fs[1..];
      }
    }
  }

  /**
   `data.remove(f)` for each previous feature in order: one intermediate
   layer per removal, the last of which lacks every previous feature.
   */
  function RemoveEach(l: Layer, previous: seq<Feature>): (r: (Layer, seq<Layer>))
    ensures |r.1| == |previous|
    ensures previous != [] ==> r.1[|previous| - 1] == r.0
    decreases |previous|
  {
    if previous == [] then (l, [])
    else
      var next := Strip(l, {previous[0].id});
      var rest := RemoveEach(next, previous[1..]);
      assert previous[1..] == [] ==> rest == (next, []);
      (rest.0, [next] + rest.1)
  }

  /** After every removal the layer lacks exactly the previous features. */
  lemma {:induction false} RemoveEachStrips(l: Layer, previous: seq<Feature>)
    ensures RemoveEach(l, previous).0 == Strip(l, IdsOf(previous))
    decreases |previous|
  {
    if previous == [] {
      assert IdsOf(previous) == {};
      StripUntouched(l, {});
    } else {
      var next := Strip(l, {previous[0].id});
      RemoveEachStrips(next, previous[1..]);
      IdsOfCons(previous);
      StripTwice(l, {previous[0].id}, IdsOf(previous[1..]));
    }
  }

  /** A feature that is not to be removed is on every intermediate layer. */
  lemma {:induction false} RemoveEachKeeps(l: Layer, previous: seq<Feature>, f: Feature)
    requires f in l && f.id !in IdsOf(previous)
    ensures forall k :: 0 <= k < |previous| ==> f in RemoveEach(l, previous).1[k]
    decreases |previous|
  {
    if previous != [] {
      var next := Strip(l, {previous[0].id});
      IdsOfTail(previous);
      assert f in next;
      RemoveEachKeeps(next, previous[1..], f);
      assert RemoveEach(l, previous).1 == [next] + RemoveEach(next, previous[1..]).1;
    }
  }

  /**
   The overlay's features, the map's layer and the frames the layer passed
   through while a snapshot was applied.
   */
  datatype Outcome = Outcome(features: seq<Feature>, layer: Option<Layer>, frames: seq<Layer>)

  /**
   The body of `fetchTrackers` once the response is in. No snapshot (a
   failed response) changes nothing. Without a map, the overlay is left with
   no features. Otherwise the snapshot's features are added, become the
   overlay's features, and the previous ones are removed afterwards.
   */
  function ApplySnapshot(features: seq<Feature>, layer: Option<Layer>, snapshot: Option<seq<Feature>>): (r: Outcome)
    ensures snapshot.None? ==> r == Outcome(features, layer, [])
    ensures snapshot.Some? && layer.None? ==> r == Outcome([], None, [])
    ensures snapshot.Some? && layer.Some? ==>
      && r.features == snapshot.value
      && |r.frames| == |features| + 1
      && r.frames[0] == layer.value + snapshot.value
      && r.layer == Some(r.frames[|r.frames| - 1])
      && r.layer == Some(Strip(layer.value, IdsOf(features)) + Strip(snapshot.value, IdsOf(features)))
    ensures snapshot.Some? && layer.Some? && IdsOf(snapshot.value) !! IdsOf(features) ==>
      r.layer == Some(Strip(layer.value, IdsOf(features)) + snapshot.value)
  {
    match snapshot
    case None => Outcome(features, layer, [])
    case Some(added) =>
      match layer
      case None => Outcome([], None, [])
      case Some(l) =>
        var shown := l + added;
        var removal := RemoveEach(shown, features);
        RemoveEachStrips(shown, features);
        StripConcat(l, added, IdsOf(features));
        StripUntouchedWhenDisjoint(added, IdsOf(features));
        Outcome(added, Some(removal.0), [shown] + removal.1)
  }

  /**
   With new feature objects, each of them is on every intermediate layer:
   the map never goes without a newly fetched feature.
   */
  lemma SnapshotOnEveryFrame(features: seq<Feature>, l: Layer, added: seq<Feature>, f: Feature)
    requires IdsOf(added) !! IdsOf(features) && f in added
    ensures var r := ApplySnapshot(features, Some(l), Some(added));
      forall k :: 0 <= k < |r.frames| ==> f in r.frames[k]
  {
    var shown := l + added;
    assert f.id in IdsOf(added);
    RemoveEachKeeps(shown, features, f);
    FramesOf(features, l, added);
  }

  /** The frames of a snapshot applied to a map: the layer with the snapshot added, then one per removal. */
  lemma FramesOf(features: seq<Feature>, l: Layer, added: seq<Feature>)
    ensures ApplySnapshot(features, Some(l), Some(added)).frames == [l + added] + RemoveEach(l + added, features).1
  {
  }

  /**
   When the layer holds exactly the overlay's features and the snapshot
   brings new feature objects, the layer ends up holding exactly the new
   features, and a non-empty snapshot keeps every intermediate layer
   non-empty.
   */
  lemma SoleOwnerReplaced(features: seq<Feature>, added: seq<Feature>)
    requires IdsOf(added) !! IdsOf(features)
    ensures var r := ApplySnapshot(features, Some(features), Some(added));
      && r.layer == Some(added) && r.features == added
      && (added != [] ==> forall k :: 0 <= k < |r.frames| ==> r.frames[k] != [])
  {
    var r := ApplySnapshot(features, Some(features), Some(added));
    StripCovered(features, IdsOf(features));
    assert [] + added == added;
    if added != [] {
      SnapshotOnEveryFrame(features, features, added, added[0]);
      forall k | 0 <= k < |r.frames| ensures r.frames[k] != [] {
        assert added[0] in r.frames[k];
      }
    }
  }
}

=== FILE: search_params.dfy ===
/**
 The query of an address as the `URLSearchParams` interface of the WHATWG URL
 Standard (section 6.2) sees it: an ordered list of name-value pairs in which
 a name may occur any number of times.
 */
module SearchParams {

  /** One name-value pair; `.0` is the name, `.1` the value. */
  type Pair = (string, string)

  type Params = seq<Pair>

  /** `getAll(name)`: the value of every pair called `name`, in list order. */
  function GetAll(ps: Params, name: string): (r: seq<string>)
    ensures |r| <= |ps|
    ensures forall v :: v in r <==> (name, v) in ps
  {
    if ps == [] then []
    else
      assert ps == [ps[0]] + ps[1..];
      (if ps[0].0 == name then [ps[0].1] else []) + GetAll(ps[1..], name)
  }

  /** Collecting the values of a name commutes with splitting the list. */
  lemma {:induction false} GetAllConcat(a: Params, b: Params, name: string)
    ensures GetAll(a + b, name) == GetAll(a, name) + GetAll(b, name)
    decreases |a|
  {
    if a == [] {
      assert a + b == b;
    } else {
      assert (a + b)[1..] == a[1..] + b;
      GetAllConcat(a[1..], b, name);
    }
  }

  lemma GetAllConcatEvery(a: Params, b: Params)
    ensures forall m :: GetAll(a + b, m) == GetAll(a, m) + GetAll(b, m)
  {
    forall m {
      GetAllConcat(a, b, m);
    }
  }

  /** `has(name)`: some pair is called `name`. */
  function Has(ps: Params, name: string): (r: bool)
    ensures r <==> GetAll(ps, name) != []
  {
    var r := exists i :: 0 <= i < |ps| && ps[i].0 == name;
    assert r ==> GetAll(ps, name) != [] by {
      if r {
        var i :| 0 <= i < |ps| && ps[i].0 == name;
        assert (name, ps[i].1) in ps;
      }
    }
    assert GetAll(ps, name) != [] ==> r by {
      var vs := GetAll(ps, name);
      if vs != [] {
        assert vs[0] in vs;
        assert (name, vs[0]) in ps;
      }
    }
    r
  }

  /** `append(name, value)`: a new pair at the end of the list. */
  function Append(ps: Params, name: string, value: string): (r: Params)
    ensures |r| == |ps| + 1 && r[..|ps|] == ps && r[|ps|] == (name, value)
    ensures forall m :: GetAll(r, m) == GetAll(ps, m) + (if m == name then [value] else [])
  {
    GetAllConcatEvery(ps, [(name, value)]);
    assert forall m :: GetAll([(name, value)], m) == (if m == name then [value] else []) by {
      assert [(name, value)][1..] == [];
    }
    ps + [(name, value)]
  }

  /** `delete(name)`: every pair called `name` goes; the rest keep their order. */
  function Delete(ps: Params, name: string): (r: Params)
    ensures forall p :: p in r <==> p in ps && p.0 != name
    ensures forall m :: GetAll(r, m) == if m == name then [] else GetAll(ps, m)
    ensures |r| <= |ps|
  {
    if ps == [] then []
    else
      var head := if ps[0].0 == name then [] else [ps[0]];
      var rest := Delete(ps[1..], name);
      assert ps == [ps[0]] + ps[1..];
      GetAllConcatEvery(head, rest);
      GetAllConcatEvery([ps[0]], ps[1..]);
      head + rest
  }

  /** Deleting commutes with splitting the list, so the remaining pairs keep their order. */
  lemma {:induction false} DeleteConcat(a: Params, b: Params, name: string)
    ensures Delete(a + b, name) == Delete(a, name) + Delete(b, name)
    decreases |a|
  {
    if a == [] {
      assert a + b == b;
    } else {
      assert (a + b)[0] == a[0] && (a + b)[1..] == a[1..] + b;
      DeleteConcat(a[1..], b, name);
    }
  }

  /** Deleting from a single pair keeps it exactly when it has another name. */
  lemma DeleteOne(p: Pair, name: string)
    ensures Delete([p], name) == if p.0 == name then [] else [p]
  {
    assert [p][1..] == [];
  }

  /**
   `set(name, value)`: when some pair is called `name`, the first such pair
   takes `value` and the others go; otherwise the pair is appended.
   */
  function Set(ps: Params, name: string, value: string): (r: Params)
    ensures (name, value) in r && |r| <= |ps| + 1
    ensures forall p :: p in r ==> p in ps || p == (name, value)
  {
    if ps == [] then [(name, value)]
    else
      assert ps == [ps[0]] + ps[1..];
      if ps[0].0 == name then [(name, value)] + Delete(ps[1..], name)
    else [ps[0]] + Set(ps[1..], name, value)
  }

  /** After `set`, the name has exactly the new value and every other name keeps its values. */
  lemma {:induction false} SetValues(ps: Params, name: string, value: string)
    ensures forall m :: GetAll(Set(ps, name, value), m) == if m == name then [value] else GetAll(ps, m)
    decreases |ps|
  {
    var r := Set(ps, name, value);
    GetAllConcatEvery([(name, value)], []);
    assert [(name, value)][1..] == [];
    if ps != [] {
      assert ps == [ps[0]] + ps[1..];
      GetAllConcatEvery([ps[0]], ps[1..]);
      assert [ps[0]][1..] == [];
      if ps[0].0 == name {
        GetAllConcatEvery([(name, value)], Delete(ps[1..], name));
      } else {
        SetValues(ps[1..], name, value);
        GetAllConcatEvery([ps[0]], Set(ps[1..], name, value));
      }
    }
  }

  /** Setting an absent name appends it. */
  lemma {:induction false} SetAbsentAppends(ps: Params, name: string, value: string)
    requires !Has(ps, name)
    ensures Set(ps, name, value) == ps + [(name, value)]
    decreases |ps|
  {
    if ps != [] {
      assert ps[0] in ps;
      assert ps[0].1 in GetAll(ps, ps[0].0);
      assert ps == [ps[0]] + ps[1..];
      GetAllConcat([ps[0]], ps[1..], name);
      SetAbsentAppends(ps[1..], name, value);
    }
  }

  lemma SetUnfoldMatch(ps: Params, name: string, value: string)
    requires ps != [] && ps[0].0 == name
    ensures Set(ps, name, value) == [(name, value)] + Delete(ps[1..], name)
  {
  }

  lemma SetUnfoldOther(ps: Params, name: string, value: string)
    requires ps != [] && ps[0].0 != name
    ensures Set(ps, name, value) == [ps[0]] + Set(ps[1..], name, value)
  {
  }

  /**
   Putting the same head on two lists moves a position `j` of the first to
   `j + 1`: agreement below `j`, the pair at `j` and the rest behind it shift
   along.
   */
  lemma ConsShift(x: Pair, a: Params, b: Params, j: nat, at: Pair, behind: Params, xa: Params, xb: Params)
    requires j < |a| && j <= |b| && a[..j] == b[..j] && a[j] == at && a[j + 1..] == behind
    requires xa == [x] + a && xb == [x] + b
    ensures |xa| > j + 1 && xa[..j + 1] == xb[..j + 1] && xa[j + 1] == at && xa[j + 2..] == behind
  {
  }

  /**
   The replaced pair stays where the first pair called `name` was: the pairs
   in front of it are untouched and only pairs behind it can be dropped.
   */
  lemma {:induction false} SetKeepsFirstPosition(ps: Params, name: string, value: string, i: nat)
    requires i < |ps| && ps[i].0 == name && !Has(ps[..i], name)
    ensures |Set(ps, name, value)| > i
    ensures Set(ps, name, value)[..i] == ps[..i]
    ensures Set(ps, name, value)[i] == (name, value)
    ensures Set(ps, name, value)[i + 1..] == Delete(ps[i + 1..], name)
    decreases i
  {
    if i == 0 {
      SetUnfoldMatch(ps, name, value);
    } else {
      var tail := ps[1..];
      var front := ps[..i];
      assert front == [ps[0]] + tail[..i - 1];
      GetAllConcat([ps[0]], tail[..i - 1], name);
      assert front[0] in front;
      assert ps[0].1 in GetAll(front, ps[0].0);
      assert tail[i - 1] == ps[i];
      SetKeepsFirstPosition(tail, name, value, i - 1);
      assert tail[i..] == ps[i + 1..];
      SetUnfoldOther(ps, name, value);
      assert [ps[0]] + tail == ps;
      ConsShift(ps[0], Set(tail, name, value), tail, i - 1, (name, value), Delete(ps[i + 1..], name), Set(ps, name, value), ps);
    }
  }
}

=== FILE: style.dfy ===
/**
 The style function the overlay installs on the map's data layer: a pure
 function of a feature, the current time, whether names are displayed and
 the selected pilot.
 */
module Style {
  import opened Wrappers
  import opened Features
  import opened AgeLabel

  const HOUR_MS: int := 3600 * 1000

  /** Between the pilot name and the age in a label: space, middle dot, space. */
  const SEPARATOR: string := " \U{00B7} "

  /** The arrow's anchor sits this far below its tip. */
  const ANCHOR_Y: int := 2

  const TRACK_STROKE: string := "#555"

  /** `(now - ts) / (3600 * 1000) > 12`, the division being a real one. */
  predicate IsStale(ts: int, now: int) {
    (now - ts) as real / (HOUR_MS as real) > 12.0
  }

  /** Staleness is an age of more than twelve hours to the millisecond. */
  lemma StaleIffOverTwelveHours(ts: int, now: int)
    ensures IsStale(ts, now) <==> now - ts > 12 * HOUR_MS
  {
  }

  /** The two-tier opacity of a fix or track dated `ts`. */
  function AgeOpacity(ts: int, now: int): (o: real)
    ensures o == 0.3 || o == 0.9
    ensures o == 0.3 <==> now - ts > 12 * HOUR_MS
  {
    StaleIffOverTwelveHours(ts, now);
    if IsStale(ts, now) then 0.3 else 0.9
  }

  /** Fill colours; the saturation of the recency green is not modelled. */
  datatype Fill = RecencyGreen | Yellow | Red

  datatype SymbolPath = Circle | ForwardClosedArrow | SpeechBubble

  datatype Offset = Offset(x: int, y: int)

  /** Where the label sits: a fixed offset, or ahead of an arrow turned to `bearing`. */
  datatype LabelOrigin = At(offset: Offset) | AheadOfArrow(bearing: int)

  /** The marker symbol of a fix; fill and stroke share `opacity`. */
  datatype Icon = Icon(
    path: SymbolPath,
    rotation: int,
    fill: Fill,
    opacity: real,
    scale: nat,
    anchor: Option<Offset>,
    labelOrigin: LabelOrigin
  )

  datatype Style =
    | FixStyle(labelText: Option<string>, zIndex: int, icon: Icon)
    | TrackStyle(strokeColor: string, strokeWeight: nat, opacity: real, zIndex: int)
    | EmptyStyle

  /** The symbol and stacking order while the fix style is being built. */
  datatype Marker = Marker(icon: Icon, zIndex: int)

  /** A small circle, faded by age. */
  function BaseMarker(p: Props, now: int): Marker {
    Marker(Icon(Circle, 0, RecencyGreen, AgeOpacity(p.ts, now), 3, None, At(Offset(0, 3))), 10)
  }

  /** An arrow turned to the bearing of the newest fix. */
  function PointArrow(m: Marker, bearing: int): Marker {
    m.(icon := m.icon.(rotation := bearing, scale := 3, anchor := Some(Offset(0, ANCHOR_Y)),
                       path := ForwardClosedArrow, labelOrigin := AheadOfArrow(bearing)))
  }

  /** The upright speech bubble shared by messages and emergencies. */
  function Bubble(i: Icon): Icon {
    i.(scale := 1, anchor := Some(Offset(7, 9)), labelOrigin := At(Offset(0, 32)), rotation := 0, path := SpeechBubble)
  }

  function MarkMessage(m: Marker): Marker {
    Marker(Bubble(m.icon).(fill := Yellow), m.zIndex + 10)
  }

  function MarkEmergency(m: Marker): Marker {
    Marker(Bubble(m.icon).(opacity := 1.0, fill := Red), m.zIndex + 10)
  }

  /**
   The pilot's name and the age of the fix, on the newest fix of a track and
   only while names are displayed.
   */
  function FixLabel(p: Props, now: int, displayNames: bool): (r: Option<string>)
    ensures r.Some? <==> p.isLastFix && displayNames
    ensures r.Some? ==> |r.value| >= |p.name| + 3 && r.value[..|p.name| + 3] == p.name + SEPARATOR
    ensures r.Some? ==> ParseAge(r.value[|p.name| + 3..]) == Some(RoundedMinutes(now - p.ts))
  {
    if p.isLastFix && displayNames then
      var age := AgeText(RoundedMinutes(now - p.ts));
      var text := p.name + SEPARATOR + age;
      assert text[|p.name| + 3..] == age;
      ParseAgeText(RoundedMinutes(now - p.ts));
      Some(text)
    else None
  }

  /**
   The style of a fix: the circle, then the arrow when a bearing is known,
   then the message bubble, then the emergency bubble, each overriding the
   one before.
   */
  function FixStyleOf(p: Props, now: int, displayNames: bool): (r: Style)
    ensures r.FixStyle?
    ensures r.zIndex == 10 + (if HasMessage(p) then 10 else 0) + (if p.emergency then 10 else 0)
    ensures r.icon.fill == if p.emergency then Red else if HasMessage(p) then Yellow else RecencyGreen
    ensures r.icon.opacity == if p.emergency then 1.0 else if now - p.ts > 12 * HOUR_MS then 0.3 else 0.9
    ensures r.icon.path ==
      if p.emergency || HasMessage(p) then SpeechBubble
      else if p.bearing.Some? then ForwardClosedArrow
      else Circle
    ensures r.icon.rotation == if p.emergency || HasMessage(p) || p.bearing.None? then 0 else p.bearing.value
    ensures r.icon.scale == if p.emergency || HasMessage(p) then 1 else 3
    ensures r.labelText == FixLabel(p, now, displayNames)
  {
    var base := BaseMarker(p, now);
    var arrow := if p.bearing.Some? then PointArrow(base, p.bearing.value) else base;
    var message := if HasMessage(p) then MarkMessage(arrow) else arrow;
    var marker := if p.emergency then MarkEmergency(message) else message;
    FixStyle(FixLabel(p, now, displayNames), marker.zIndex, marker.icon)
  }

  /** An emergency looks the same whether or not a message comes with it; only the stacking differs. */
  lemma EmergencyHidesMessage(p: Props, msg: Option<string>, now: int, displayNames: bool)
    requires p.emergency
    ensures FixStyleOf(p, now, displayNames).icon == FixStyleOf(p.(msg := msg), now, displayNames).icon
  {
  }

  /** A track is highlighted when it has a name and that name is selected. */
  predicate Highlighted(name: string, currentName: Option<string>) {
    name != "" && currentName == Some(name)
  }

  /** The style of a track: grey, faded by the age of its first fix, thick when selected. */
  function TrackStyleOf(p: Props, now: int, currentName: Option<string>): (r: Style)
    ensures r.TrackStyle? && r.strokeColor == TRACK_STROKE && r.zIndex == 10
    ensures r.strokeWeight == 1 || r.strokeWeight == 4
    ensures r.strokeWeight == 4 <==> p.name != "" && currentName == Some(p.name)
    ensures r.opacity == 0.3 <==> now - p.firstTs > 12 * HOUR_MS
    ensures r.opacity == 0.3 || r.opacity == 0.9
  {
    var weight := if Highlighted(p.name, currentName) then 4 else 1;
    TrackStyle(TRACK_STROKE, weight, AgeOpacity(p.firstTs, now), 10)
  }

  /** At most one pilot's tracks are highlighted at a time. */
  lemma HighlightIsExclusive(p: Props, q: Props, now: int, currentName: Option<string>)
    requires TrackStyleOf(p, now, currentName).strokeWeight == 4
    requires TrackStyleOf(q, now, currentName).strokeWeight == 4
    ensures p.name == q.name
  {
  }

  /** Points take the fix style, line strings the track style, anything else the empty style. */
  function StyleOf(f: Feature, now: int, displayNames: bool, currentName: Option<string>): (r: Style)
    ensures r.FixStyle? <==> f.geometry.Point?
    ensures r.TrackStyle? <==> f.geometry.LineString?
    ensures r.EmptyStyle? <==> f.geometry.OtherGeometry?
    ensures f.geometry.Point? ==> r == FixStyleOf(f.props, now, displayNames)
    ensures f.geometry.LineString? ==> r == TrackStyleOf(f.props, now, currentName)
  {
    match f.geometry
    case Point => FixStyleOf(f.props, now, displayNames)
    case LineString => TrackStyleOf(f.props, now, currentName)
    case OtherGeometry(_) => EmptyStyle
  }
}

=== FILE: url_history.dfy ===
/**
 The viewer's address-bar state store: multi-valued query parameters read
 and written through the search parameters of the current address. Each
 operation takes the parameters before the call and returns those after it;
 the `replaceState` that writes them back is not modelled.
 */
module UrlHistory {
  import opened SearchParams
  import opened Wrappers
  import Decimal

  /** Parameter names the viewer understands. */
  const TRACK_URL: string := "track"
  const TRACK_ID: string := "id"
  const ROUTE: string := "p"

  /** No value occurs twice. */
  predicate NoDup(s: seq<string>) {
    forall i, j :: 0 <= i < j < |s| ==> s[i] != s[j]
  }

  /** `s` with every occurrence of `v` taken out and the rest in order. */
  function Without(s: seq<string>, v: string): seq<string> {
    if s == [] then []
    else Without(s[..|s| - 1], v) + (if s[|s| - 1] == v then [] else [s[|s| - 1]])
  }

  /** The pairs `(name, vs[0]), (name, vs[1]), ...`. */
  function Named(name: string, vs: seq<string>): (r: Params)
    ensures |r| == |vs|
    ensures forall k :: 0 <= k < |r| ==> r[k] == (name, vs[k])
  {
    seq(|vs|, k requires 0 <= k < |vs| => (name, vs[k]))
  }

  /** Whether the address names a track or a route, which the map centres on. */
  function HasTrackOrRoute(ps: Params): (r: bool)
    ensures r <==> GetAll(ps, TRACK_ID) != [] || GetAll(ps, TRACK_URL) != [] || GetAll(ps, ROUTE) != []
  {
    Has(ps, TRACK_ID) || Has(ps, TRACK_URL) || Has(ps, ROUTE)
  }

  /**
   The values of `name` in order, and the parameters afterwards: writing the
   unchanged address back leaves every parameter as it was.
   */
  function GetUrlParam(ps: Params, name: string): (r: (seq<string>, Params))
    ensures r.0 == GetAll(ps, name)
    ensures forall v :: v in r.0 <==> (name, v) in ps
    ensures forall m :: GetAll(r.1, m) == GetAll(ps, m)
  {
    (GetAll(ps, name), ps)
  }

  /** Drops every value of `name`. */
  function DeleteUrlParam(ps: Params, name: string): (r: Params)
    ensures GetAll(r, name) == []
    ensures forall m :: m != name ==> GetAll(r, m) == GetAll(ps, m)
  {
    Delete(ps, name)
  }

  /** Appends `value` to the values of `name` unless it is there already. */
  function AddUrlParamValue(ps: Params, name: string, value: string): (r: Params)
    ensures GetAll(r, name) == if value in GetAll(ps, name) then GetAll(ps, name) else GetAll(ps, name) + [value]
    ensures forall m :: m != name ==> GetAll(r, m) == GetAll(ps, m)
    ensures NoDup(GetAll(ps, name)) ==> NoDup(GetAll(r, name))
  {
    if value in GetAll(ps, name) then ps else Append(ps, name, value)
  }

  /** Adding a value twice is adding it once. */
  lemma AddUrlParamValueIdempotent(ps: Params, name: string, value: string)
    ensures AddUrlParamValue(AddUrlParamValue(ps, name, value), name, value) == AddUrlParamValue(ps, name, value)
  {
  }

  /** `Number.MAX_SAFE_INTEGER`, 2^53 - 1. */
  const MAX_SAFE_INTEGER: int := 0x1F_FFFF_FFFF_FFFF

  /** The integers a JavaScript number holds exactly; `String` writes them in plain digits. */
  type SafeInteger = n: int | -MAX_SAFE_INTEGER <= n <= MAX_SAFE_INTEGER

  /** An element of the list given to `addUrlParamValues`: a string or a number. */
  datatype ParamValue = Text(text: string) | Number(n: SafeInteger)

  /** `String(v)`: a string as it is, a number in decimal, which reads back as that number. */
  function ParamString(v: ParamValue): (r: string)
    ensures v.Text? ==> r == v.text
    ensures v.Number? ==> Decimal.ParseInt(r) == Some(v.n)
  {
    match v
    case Text(t) => t
    case Number(n) =>
      Decimal.ParseIntToString(n);
      Decimal.IntToString(n)
  }

  function ParamStrings(vs: seq<ParamValue>): (r: seq<string>)
    ensures |r| == |vs|
    ensures forall k :: 0 <= k < |vs| ==> r[k] == ParamString(vs[k])
  {
    seq(|vs|, k requires 0 <= k < |vs| => ParamString(vs[k]))
  }

  lemma ParamStringsCons(vs: seq<ParamValue>)
    requires vs != []
    ensures ParamStrings(vs) == [ParamString(vs[0])] + ParamStrings(vs[1..])
  {
    var a, b := ParamStrings(vs), [ParamString(vs[0])] + ParamStrings(vs[1..]);
    forall k | 0 <= k < |a| ensures a[k] == b[k] {
      if k > 0 {
        assert b[k] == ParamStrings(vs[1..])[k - 1];
      }
    }
  }

  /**
   The values of `vs` that are not in `seen`, in the order of their first
   occurrence, each once.
   */
  function Fresh(seen: seq<string>, vs: seq<string>): seq<string>
    decreases |vs|
  {
    if vs == [] then []
    else if vs[0] in seen then Fresh(seen, vs[1..])
    else [vs[0]] + Fresh(seen + [vs[0]], vs[1..])
  }

  lemma FreshStep(seen: seq<string>, v: string, rest: seq<string>)
    ensures Fresh(seen, [v] + rest) == if v in seen then Fresh(seen, rest) else [v] + Fresh(seen + [v], rest)
  {
    assert ([v] + rest)[1..] == rest;
  }

  /** Appending `v` when it is new to `before`, then the fresh rest, is appending the fresh values of `[v] + rest`. */
  lemma FreshAppendStep(before: seq<string>, v: string, rest: seq<string>, after: seq<string>)
    requires after == if v in before then before else before + [v]
    ensures after + Fresh(after, rest) == before + Fresh(before, [v] + rest)
  {
    FreshStep(before, v, rest);
    if v !in before {
      assert before + [v] + Fresh(after, rest) == before + ([v] + Fresh(after, rest));
    }
  }

  /**
   `addUrlParamValue` for each element in list order: the old values stay
   first and in order, every given value ends up present, nothing else is
   added, and a duplicate-free list stays duplicate-free.
   */
  function AddUrlParamValues(ps: Params, name: string, values: seq<ParamValue>): (r: Params)
    ensures GetAll(r, name) == GetAll(ps, name) + Fresh(GetAll(ps, name), ParamStrings(values))
    ensures forall v :: v in GetAll(r, name) <==> v in GetAll(ps, name) || v in ParamStrings(values)
    ensures NoDup(GetAll(ps, name)) ==> NoDup(GetAll(r, name))
    ensures forall m :: m != name ==> GetAll(r, m) == GetAll(ps, m)
    decreases |values|
  {
    if values == [] then ps
    else
      var before, v := GetAll(ps, name), ParamString(values[0]);
      var next := AddUrlParamValue(ps, name, v);
      ParamStringsCons(values);
      FreshAppendStep(before, v, ParamStrings(values[1..]), GetAll(next, name));
      var r := AddUrlParamValues(next, name, values[1..]);
      r
  }

  /** Values are appended in list order, a repeated one only the first time. */
  lemma AddValuesInListOrder(ps: Params)
    requires GetAll(ps, "n") == []
    ensures GetAll(AddUrlParamValues(ps, "n", [Text("a"), Text("b"), Text("a")]), "n") == ["a", "b"]
  {
    var vs := [Text("a"), Text("b"), Text("a")];
    assert ParamStrings(vs) == ["a", "b", "a"];
    var empty: seq<string> := [];
    FreshOfList(empty, "a", "b");
    assert empty + ["a", "b"] == ["a", "b"];
  }

  /** `Fresh` on a three-value list whose last value repeats the first. */
  lemma FreshOfList(seen: seq<string>, a: string, b: string)
    requires a !in seen && b !in seen && a != b
    ensures Fresh(seen, [a, b, a]) == [a, b]
  {
    assert [a, b, a] == [a] + [b, a];
    FreshStep(seen, a, [b, a]);
    assert [b, a] == [b] + [a];
    FreshStep(seen + [a], b, [a]);
    assert [a] == [a] + [];
    FreshStep(seen + [a] + [b], a, []);
    assert a in seen + [a] + [b];
  }

  /** Adding values that are all present already changes nothing. */
  lemma {:induction false} AddPresentValuesIsNoop(ps: Params, name: string, values: seq<ParamValue>)
    requires forall k :: 0 <= k < |values| ==> ParamString(values[k]) in GetAll(ps, name)
    ensures AddUrlParamValues(ps, name, values) == ps
    decreases |values|
  {
    if values != [] {
      AddPresentValuesIsNoop(ps, name, values[1..]);
    }
  }

  /** Adding the same list twice is adding it once. */
  lemma AddUrlParamValuesIdempotent(ps: Params, name: string, values: seq<ParamValue>)
    ensures var once := AddUrlParamValues(ps, name, values);
      AddUrlParamValues(once, name, values) == once
  {
    var once := AddUrlParamValues(ps, name, values);
    assert forall k :: 0 <= k < |values| ==> ParamStrings(values)[k] in GetAll(once, name);
    AddPresentValuesIsNoop(once, name, values);
  }

  /** Makes `value` the one and only value of `name`. */
  function SetUrlParamValue(ps: Params, name: string, value: string): (r: Params)
    ensures GetAll(r, name) == [value]
    ensures forall m :: m != name ==> GetAll(r, m) == GetAll(ps, m)
  {
    SetValues(ps, name, value);
    Set(ps, name, value)
  }

  /** The values of a run of pairs all called `name`. */
  lemma {:induction false} GetAllNamed(name: string, vs: seq<string>)
    ensures GetAll(Named(name, vs), name) == vs
    ensures forall m :: m != name ==> GetAll(Named(name, vs), m) == []
    decreases |vs|
  {
    if vs != [] {
      var ns := Named(name, vs);
      assert ns[1..] == Named(name, vs[1..]);
      GetAllNamed(name, vs[1..]);
      assert vs == [vs[0]] + vs[1..];
    }
  }

  /** One more value examined: it is dropped when it equals `v` and appended otherwise. */
  lemma NamedWithoutStep(name: string, values: seq<string>, v: string, i: nat)
    requires i < |values|
    ensures Named(name, Without(values[..i + 1], v))
      == Named(name, Without(values[..i], v)) + (if values[i] == v then [] else [(name, values[i])])
  {
    assert values[..i + 1][..i] == values[..i];
  }

  /** What the parameters rebuilt by `DeleteUrlParamValue` hold for each name. */
  lemma RebuiltValues(ps: Params, name: string, kept: seq<string>)
    ensures GetAll(Delete(ps, name) + Named(name, kept), name) == kept
    ensures forall m :: m != name ==> GetAll(Delete(ps, name) + Named(name, kept), m) == GetAll(ps, m)
  {
    GetAllConcatEvery(Delete(ps, name), Named(name, kept));
    GetAllNamed(name, kept);
  }

  /**
   The `forEach` of `deleteUrlParamValue`: appends to `start` a pair
   `(name, v)` for every `v` of `values` that differs from `value`, in order,
   and reports whether some `v` equalled it.
   */
  method AppendAllBut(start: Params, name: string, values: seq<string>, value: string) returns (r: Params, deleted: bool)
    ensures deleted <==> value in values
    ensures r == start + Named(name, Without(values, value))
  {
    deleted := false;
    r := start;
    var i := 0;
    while i < |values|
      invariant 0 <= i <= |values|
      invariant deleted <==> value in values[..i]
      invariant r == start + Named(name, Without(values[..i], value))
    {
      var seen := values[..i];
      assert values[..i + 1] == seen + [values[i]];
      assert value in values[..i + 1] <==> value in seen || values[i] == value;
      NamedWithoutStep(name, values, value, i);
      if values[i] == value {
        deleted := true;
        assert Named(name, Without(values[..i + 1], value)) == Named(name, Without(seen, value));
      } else {
        var pair := (name, values[i]);
        assert Named(name, Without(values[..i + 1], value)) == Named(name, Without(seen, value)) + [pair];
        r := r + [pair];
      }
      i := i + 1;
    }
    assert values[..i] == values;
  }

  /**
   Takes `value` out of the values of `name` by clearing the name and
   appending back every value that differs from it; reports whether it
   occurred. Every occurrence goes, not just one, and the surviving pairs of
   `name` move behind all other pairs.
   */
  method DeleteUrlParamValue(ps: Params, name: string, value: string) returns (r: Params, deleted: bool)
    ensures deleted <==> value in GetAll(ps, name)
    ensures GetAll(r, name) == Without(GetAll(ps, name), value)
    ensures forall m :: m != name ==> GetAll(r, m) == GetAll(ps, m)
    ensures r == Delete(ps, name) + Named(name, Without(GetAll(ps, name), value))
  {
    var values := GetAll(ps, name);
    r, deleted := AppendAllBut(Delete(ps, name), name, values, value);
    RebuiltValues(ps, name, Without(values, value));
  }

  /** Filtering commutes with splitting the list, so the kept values keep their order. */
  lemma {:induction false} WithoutConcat(a: seq<string>, b: seq<string>, v: string)
    ensures Without(a + b, v) == Without(a, v) + Without(b, v)
    decreases |b|
  {
    if b == [] {
      assert a + b == a;
    } else {
      var b' := b[..|b| - 1];
      assert (a + b)[..|a + b| - 1] == a + b';
      WithoutConcat(a, b', v);
    }
  }

  /** Exactly the occurrences of `v` are dropped; every other value keeps its count. */
  lemma {:induction false} WithoutMultiset(s: seq<string>, v: string)
    ensures multiset(Without(s, v)) == multiset(s)[v := 0]
    decreases |s|
  {
    if s != [] {
      var s' := s[..|s| - 1];
      WithoutMultiset(s', v);
      assert s == s' + [s[|s| - 1]];
    }
  }

  /** A value that does not occur leaves the list as it is. */
  lemma {:induction false} WithoutAbsent(s: seq<string>, v: string)
    requires v !in s
    ensures Without(s, v) == s
    decreases |s|
  {
    if s != [] {
      var s' := s[..|s| - 1];
      assert s == s' + [s[|s| - 1]];
      WithoutAbsent(s', v);
    }
  }

  /** Deleting `"7"` from `["5", "7", "9"]` leaves `["5", "9"]`; deleting from `["7", "7"]` leaves nothing. */
  lemma WithoutExamples()
    ensures Without(["5", "7", "9"], "7") == ["5", "9"]
    ensures Without(["7", "7"], "7") == []
  {
    assert ["5", "7", "9"][..2] == ["5", "7"];
    assert ["5", "7"][..1] == ["5"];
    assert ["5"][..0] == [];
    assert ["7", "7"][..1] == ["7"];
    assert ["7"][..0] == [];
  }
}

=== FILE: wrappers.dfy ===
/** JavaScript's `undefined` and `null` next to a present value. */
module Wrappers {
  datatype Option<+T> = None | Some(value: T)
}
